=== FILE: README.md ===
# CEP-to-temperature services: a Dafny model of the decision core

The repository resolves a Brazilian postal code (CEP) to the current
temperature. It uses two HTTP services:

- The front service (`cmd/a/a.go`, `POST /temp/:cep`) validates the CEP and relays it to the back service.
- The back service (`cmd/b/b.go`, `GET /temp/:cep`) validates the CEP and checks that its CEP Aberto token is configured.
  It then geocodes the CEP with CEP Aberto, reads the current temperature at those coordinates from Open-Meteo, and converts it to Fahrenheit and Kelvin.
- An earlier single-service variant (`clima.go`, `GET /coordenadas/:cep`) only geocodes.

This project models the decision logic under that plumbing:

- CEP validation;
- how each fetch function classifies an upstream outcome into a value or an error message;
- the fail-fast handler chains and the HTTP status each outcome maps to;
- the unit conversion.

Modules:

- `Utf8` (`utf8.dfy`) holds Go strings as raw bytes (`ByteString`, one char per byte) and the UTF-8 decoding step behind Go's `for … range` over a string.
- `Http` (`http.dfy`) holds the outcome of one outgoing call (`Exchange`), the reply a handler writes, the call log, the status codes and the shared error messages.
- `Cep` (`cep.dfy`) holds `validarCEP`. It is shared by both services because `cmd/a/a.go:46-56` is a verbatim copy of `cmd/b/b.go:45-55`.
- `Temperature` (`temperature.dfy`) holds the `Temperatura` record and the conversion.
- `ServiceB` (`service_b.dfy`), `ServiceA` (`service_a.dfy`) and `Clima` (`clima.dfy`) hold one module per source file.
- `Topology` (`topology.dfy`) holds the front handler fed with what the back handler replies.

Modelling choices:

- An upstream call is a value of `Exchange<T>`. The request cannot be built (`RequestFail`), the round trip fails (`TransportFail`, which includes a deadline exceeded before the response headers arrive), or a response arrives with status code, status line and a body that decodes into `T` or does not.
- Errors are message-carrying values (`Result.Err(msg)`). The handlers classify them, as the source does, by comparing the message with `"can not find zipcode"`.
- A handler is a function from the CEP, the token and the upstream outcomes to a `Handled` value. It holds the reply and the log of the fetch functions it invoked, with their arguments. "No upstream call" is an empty log.
- `strconv.ParseFloat` is an oracle parameter `parse: string -> FloatParse`.
- Temperatures are `real`, and 1.8 is the exact rational 9/5.

Facts about the code that the model keeps:

- `cmd/a/a.go:93-95` turns every non-200 answer of the back service into `"resposta inesperada da API: <status line>"`. The front's 404 branch at `cmd/a/a.go:175-178` is therefore unreachable, and a back-service 404 reaches the caller as a 502 (`ServiceA.HandlePostTempStatuses`, `Topology.FrontOverBack`).
- `getTemperature` (`cmd/b/b.go:113-124`) never reads the response status, so any decodable body yields a reading (`ServiceB.GetTemperatureIgnoresStatus`).
- `fetchTemp` takes a token it never uses: the request built at `cmd/a/a.go:78-86` sets no header (`ServiceA.RelayRequestIgnoresToken`, `ServiceA.HandlePostTempRelayRequests`).
- The request context bounds the reading of the response body too (`cmd/b/b.go:60`). A geocoder deadline that expires after a 200 status makes the decode at `cmd/b/b.go:80` fail, and `cmd/b/b.go:82` reports that as "can not find zipcode": the back answers 404, not 502 (`ServiceB.ExampleNotFound`, which holds for every decoder error).
- `clima.go:56` checks only the byte length of the CEP (`Clima.ClimaAdmitsNonDigits`).
- The token written into `clima.go:62` is a constant of the source; the model's `Clima.ClimaToken` is a placeholder that stands for it.
- `GeocodeRequest` and `RelayRequest` describe the requests as `fetchCoordinates` and `fetchTemp` build them. The handlers log which fetch function they invoked and with which arguments, and `ServiceB.GeocodeRequestsSent` and `ServiceA.RelayRequestsSent` turn that log into the requests built.

## Model

| member | source | states |
|---|---|---|
| `Utf8.DecodeRune` | cmd/b/b.go:49 | The rune `range` yields at a position: an ASCII byte is its own one-byte rune, a rune starting at a non-ASCII byte is at least 0x80, an invalid start yields U+FFFD with width 1, and every rune is a Unicode scalar value |
| `Cep.AllRunesDigitsIffAllBytesDigits` | cmd/b/b.go:49-53 | Walking the string rune by rune finds only digits exactly when every byte is an ASCII digit |
| `Cep.ValidarCEP` | cmd/b/b.go:45-55 | Returns true iff the input is exactly 8 bytes, all of them in '0'..'9'; this is the same as the length check followed by the rune-by-rune digit check |
| `Cep.CepExamples` | clima_test.go:79-109 | The tests' CEPs: "123" is rejected and "00000000" accepted. The model adds its own examples: "4183046a" and an 8-byte string ending in the two bytes of "é" are rejected, and "41830460" (the CEP of TestCoordenadas, which does not call validarCEP) is accepted |
| `Http.PrefixedIsNotNotFound` | cmd/b/b.go:185 | A message built from a prefix that does not begin with 'c' is never "can not find zipcode", so a wrapped error never classifies as not-found |
| `Temperature.Convert` | cmd/b/b.go:201-206 | The record keeps the city and the Celsius reading, and its Fahrenheit and Kelvin fields are consistent with it: (F − 32)·5 = C·9 and K − C = 273 |
| `Temperature.ConsistentIsConverted` | cmd/b/b.go:201-206 | Every consistent record is exactly the conversion of its own Celsius value, so the three fields are never set independently |
| `Temperature.ConvertInverse` | cmd/b/b.go:204-205 | Celsius is recovered from Fahrenheit as (F − 32)·5/9 and from Kelvin as K − 273 |
| `Temperature.ConvertExamples` | cmd/b/b.go:201-206 | 0 °C gives (32, 273), 100 °C gives (212, 373) and 25 °C gives (77, 298) |
| `ServiceB.GeocodeRequest` | cmd/b/b.go:58-65 | The geocoding request is a GET whose URL is the CEP Aberto endpoint followed by the CEP, with the single header "Authorization: Token <token>" |
| `ServiceB.GeocodeRequestsSent` | cmd/b/b.go:182 | The requests of a call log: every geocoding call in the log contributes its `GeocodeRequest`, and every request listed comes from a geocoding call in the log |
| `ServiceB.HandleTempGeocodeRequests` | cmd/b/b.go:162-182 | The handler builds exactly one geocoding request, for its CEP and with its token, when the CEP is valid and the token is set, and builds none otherwise |
| `ServiceB.GeocodeRequestInjective` | cmd/b/b.go:58-65 | Two geocoding requests are equal only when their CEPs and tokens are equal |
| `ServiceB.FetchCoordinates` | cmd/b/b.go:57-90 | Success happens iff the status is 200 and the body decodes with non-empty latitude and longitude, and the record is then returned unchanged. The result is "can not find zipcode" iff the status is 200 and the body is undecodable or lacks a coordinate. A non-200 status gives "resposta inesperada da API: <status line>". Transport and request failures give their wrapped messages |
| `ServiceB.GetTemperature` | cmd/b/b.go:92-125 | Success happens iff both coordinates parse and a response body decodes, and it returns the raw reading. An unparsable latitude or longitude gives its "inválida" message. With both parsed, a request failure gives "erro ao criar requisição: …", a transport failure "erro ao realizar requisição: …" and an undecodable body "erro ao decodificar resposta: …". No error is ever "can not find zipcode" |
| `ServiceB.GetTemperatureIgnoresStatus` | cmd/b/b.go:113-124 | The weather status code and status line never change the outcome |
| `ServiceB.HandleTemp` | cmd/b/b.go:162-208 | The status is one of 200/404/422/500/502. 422 `{"error":"invalid zipcode."}` iff the CEP is invalid, with no upstream call. 500 `{"error":"API token not configured"}` iff the CEP is valid and the token is empty, with no upstream call. 404 iff the geocoder answered 200 with an undecodable or coordinate-less body; the reply is then `{"error":"can not find zipcode"}` and only the geocoder was called. 200 carries a consistent Temperatura. The geocoder is always the first call |
| `ServiceB.HandleTempGeocodeFailure` | cmd/b/b.go:184-191 | Any other geocoding error is a 502 carrying that error's message, and the weather is never fetched |
| `ServiceB.HandleTempWeatherFailure` | cmd/b/b.go:193-199 | A weather failure is a 502 carrying getTemperature's message; the city is discarded, and the weather call used the geocoded latitude and longitude |
| `ServiceB.HandleTempSuccess` | cmd/b/b.go:201-207 | On success the reply is 200 with the geocoded city, TempC the raw reading, TempF = TempC·1.8 + 32 and TempK = TempC + 273 |
| `ServiceB.ExampleSuccess` | clima_test.go:35-42 | CEP 01001000 with the test's mocks (a geocoder record at (-23.5505, -46.6333) with no city, a reading of 25) gives 200. The test asserts only the 200; the empty city and the values 77 °F and 298 K are derived from the conversion |
| `ServiceB.ExampleInvalid` | clima_test.go:79-94 | "123" gives 422 with no upstream call, whatever the token and the upstreams |
| `ServiceB.ExampleNotFound` | clima_test.go:97-114 | "00000000" answered by an undecodable 200 body gives 404, and the weather is never fetched |
| `ServiceA.RelayRequest` | cmd/a/a.go:78-86 | The relay request as fetchTemp builds it is a GET whose URL is "http://servico-b:8081/temp/" followed by the CEP, with no header set |
| `ServiceA.RelayRequestsSent` | cmd/a/a.go:172 | The requests of a call log: every relay call in the log contributes its `RelayRequest`, and every request listed comes from a relay call in the log |
| `ServiceA.HandlePostTempRelayRequests` | cmd/a/a.go:158-176 | A valid CEP makes the handler build exactly one relay request, a GET to "http://servico-b:8081/temp/" followed by the CEP with no header set; an invalid CEP builds none |
| `ServiceA.RelayRequestIgnoresToken` | cmd/a/a.go:78-87 | The token given to fetchTemp does not influence the outgoing request |
| `ServiceA.FetchTemp` | cmd/a/a.go:78-105 | Success happens iff the back service answered 200 and the body decoded, and the Temperatura is then returned field for field. A request failure gives "erro ao criar requisição: …". A transport failure gives "erro ao realizar requisição: …". A non-200 gives "resposta inesperada da API: <status line>". A decode failure gives "erro ao decodificar resposta: …" |
| `ServiceA.FetchTempNeverNotFound` | cmd/a/a.go:93-101 | fetchTemp never fails with exactly "can not find zipcode" |
| `ServiceA.HandlePostTemp` | cmd/a/a.go:158-183 | 422 `{"error":"invalid zipcode."}` iff the CEP is invalid, and fetchTemp is then never called. A valid CEP makes exactly one relay call with the CEP and token |
| `ServiceA.HandlePostTempStatuses` | cmd/a/a.go:172-182 | The reply is only ever 422, 502 or 200, so the 404 branch is unreachable. Every fetchTemp error is a 502 with its message, a back-service 404 included. Success is 200 with the decoded Temperatura unchanged |
| `Clima.FetchCoordinates` | clima.go:20-47 | Success happens iff the status is 200 and the body decodes. The decoded coordinates are returned unchanged, even when empty. A request failure gives "erro ao criar requisição: …" and a transport failure "erro ao realizar requisição: …". A non-200 status gives "resposta inesperada da API: …". A decode failure gives "erro ao decodificar resposta: …". No error is a not-found |
| `Clima.HandleCoordenadas` | clima.go:52-75 | 400 with the "CEP inválido…" message iff the CEP is not 8 bytes long, with no upstream call. Otherwise the CEP goes to the geocoder with the built-in token. A fetch error gives 502 with its message, and success gives 200 with the coordinates unchanged |
| `Clima.ClimaAdmitsNonDigits` | clima.go:56-59 | "4183046a", which validarCEP rejects, reaches the geocoder, and an empty coordinate record comes back as 200 |
| `Http.StatusLine` | cmd/a/a.go:94 | `resp.Status` for each code the three handlers write (200, 404, 422, 500 and 502 from the back service, 400 from `clima.go`): the three-digit code, a space and Go's net/http status text ("404 Not Found", "502 Bad Gateway", …) |
| `Topology.Served` | cmd/a/a.go:87-101 | What fetchTemp receives when the back handler has replied through its `c.JSON` calls (`cmd/b/b.go:166`, 172, 186, 189, 197, 207): the same status with Go's status line, and a body that always decodes; a Temperatura reply arrives unchanged and an `{"error": …}` reply decodes as the zero Temperatura |
| `Topology.FrontOverBack` | cmd/a/a.go:172-182 | Composed with the back service, the front answers 200 exactly when the back does, with the same consistent Temperatura. Every other back answer becomes a 502 naming the back's status line. An invalid CEP stops at the front with 422 |
| `Topology.NotFoundSurfacesAsBadGateway` | cmd/a/a.go:174-180 | An unknown CEP that the back answers with 404 reaches the front's caller as 502 "resposta inesperada da API: 404 Not Found" |

## Left out

- HTTP transport, Gin routing and the server lifecycle (`router.Run`, `main`) are not modelled. A call is an abstract `Exchange`, and a reply is a status plus a body value rather than encoded JSON.
- JSON decoding is abstract: a body decodes into the target record or it does not. Go's decoder rules are not modelled (missing fields become zero values, unknown fields are skipped). They decide, for instance, that a 200 `{}` from the geocoder decodes into empty coordinates and so is "not found" (`cmd/b/b.go:79-87`); the model admits that case as a decoded record with empty coordinates, but does not derive it from the JSON text. `Topology.Served` decodes an error object as the zero Temperatura, which fetchTemp never reads, since it returns at `cmd/a/a.go:93-95` on every non-200 status before decoding.
- Headers added by the transport are left out. fetchTemp's client wraps `otelhttp.NewTransport` (`cmd/a/a.go:86`), which with the TraceContext propagator installed by `initTracer` adds a `traceparent` header, and Go's client adds its default headers (User-Agent, Accept-Encoding) to both requests. The request values describe only what the fetch functions set themselves.
- `strconv.ParseFloat` is not modelled. Its result is the oracle parameter `parse`, so infinities and NaN are not modelled either.
- The weather request URL is not built: its `%.4f` formatting of the coordinates is left out. Only the `getTemperature` invocation and its arguments are logged.
- IEEE 754 rounding of the conversion is left out: arithmetic is exact over `real`.
- OpenTelemetry and Zipkin (`initTracer` and every span start and end) have no effect on replies and are left out.
- Deadlines and cancellation (`context.WithTimeout`, 6 s and 3 s) are not modelled as time. A deadline that expires before the response headers is a `TransportFail`; one that expires while the body is read is a `DecodeFail`.
- `.env` loading, `os.Getenv` and the debug prints are left out. The token is an input: read per request in `cmd/b/b.go`, at start-up in `cmd/a/a.go`, and a constant in `clima.go`.
- The package-level function variables that tests swap are not modelled as state. The upstream outcomes are parameters instead.
- `RequestFail` is admitted for every fetch, although building the request cannot fail for an 8-digit CEP.
- The unused `getTemperature` copy in `cmd/a/a.go:107-140` is not part of this model, because nothing calls it.
- dev/main.go only starts the two services as subprocesses and is not part of this model.
- The handler inside clima_test.go is a test-local reimplementation. It is used only as the source of the examples.

=== FILE: cep.dfy ===
/**
 * validarCEP, the admission gate of both services: a CEP (Brazilian postal
 * code) is accepted when it is exactly eight ASCII decimal digits. The length
 * is Go's len, a count of bytes; the digit test walks runes.
 */
module Cep {
  import opened Utf8

  predicate IsDigitRune(c: int) {
    '0' as int <= c <= '9' as int
  }

  /** The admission rule: eight bytes, each an ASCII digit. */
  predicate IsValidCep(cep: ByteString) {
    |cep| == 8 && forall i | 0 <= i < |cep| :: IsDigitRune(cep[i] as int)
  }

  /** The rune walk of `for _, c := range s`: true when every rune it yields is a digit. */
  predicate AllRunesDigits(s: ByteString)
    decreases |s|
  {
    if |s| == 0 then true
    else
      var (c, width) := DecodeRune(s);
      IsDigitRune(c) && AllRunesDigits(s[width..])
  }

  /**
   * Walking runes and walking bytes agree on "all digits": a rune that starts
   * at a non-ASCII byte is at least 0x80, so it is never a digit, and an ASCII
   * byte is its own one-byte rune.
   */
  lemma {:induction false} AllRunesDigitsIffAllBytesDigits(s: ByteString)
    ensures AllRunesDigits(s) <==> forall i | 0 <= i < |s| :: IsDigitRune(s[i] as int)
    decreases |s|
  {
    if |s| > 0 {
      var (c, width) := DecodeRune(s);
      AllRunesDigitsIffAllBytesDigits(s[width..]);
      if IsDigitRune(c) {
        assert width == 1 && c == s[0] as int;
        assert forall i | 1 <= i < |s| :: s[width..][i - 1] == s[i];
      } else {
        assert !IsDigitRune(s[0] as int);
      }
    }
  }

  /** validarCEP: reject any length but 8 before looking at a character, then reject the first rune outside '0'..'9'. */
  method ValidarCEP(cep: ByteString) returns (ok: bool)
    ensures ok == IsValidCep(cep)
    ensures ok == (|cep| == 8 && AllRunesDigits(cep))
  {
    AllRunesDigitsIffAllBytesDigits(cep);
    if |cep| != 8 {
      return false;
    }
    var i := 0;
    while i < |cep|
      invariant 0 <= i <= |cep|
      invariant forall k | 0 <= k < i :: IsDigitRune(cep[k] as int)
      decreases |cep| - i
    {
      var (c, width) := DecodeRune(cep[i..]);
      if c < '0' as int || c > '9' as int {
        return false;
      }
      i := i + width;
    }
    return true;
  }

  /**
   * Examples: "123" is too short; "00000000" and "41830460" pass; an
   * eight-byte string holding "é" (bytes C3 A9) is rejected although Go's
   * range sees only seven runes in it.
   */
  lemma CepExamples()
    ensures !IsValidCep("123")
    ensures IsValidCep("00000000") && IsValidCep("41830460")
    ensures !IsValidCep("4183046a")
    ensures !IsValidCep("000000\U{C3}\U{A9}") && !AllRunesDigits("000000\U{C3}\U{A9}")
  {
    AllRunesDigitsIffAllBytesDigits("000000\U{C3}\U{A9}");
    assert !IsDigitRune("000000\U{C3}\U{A9}"[6] as int);
    assert !IsDigitRune("4183046a"[7] as int);
  }
}

=== FILE: clima.dfy ===
/**
 * The early single-service variant (clima.go): GET /coordenadas/:cep checks
 * only the byte length of the CEP, geocodes it with a built-in token and
 * replies with the coordinates. Its fetchCoordinates has no "not found"
 * classification: a body that does not decode is a decode error, and a
 * record with empty coordinates is a success.
 */
module Clima {
  import opened Utf8
  import opened Http
  import Cep

  /** The geocoder's answer as this variant decodes it: coordinates only. */
  datatype Coordenadas = Coordenadas(latitude: string, longitude: string)

  /**
   * The CEP Aberto token written into the handler. Only its being a fixed
   * constant matters here, so the model uses a placeholder value.
   */
  const ClimaToken: ByteString := "clima-built-in-token"
  const InvalidCepMessage := "CEP inválido. Use exatamente 8 dígitos numéricos."

  /** fetchCoordinates of clima.go: classifies the geocoding exchange. */
  function FetchCoordinates(geo: Exchange<Coordenadas>): (r: Result<Coordenadas>)
    ensures r.Ok? <==> geo.Response? && geo.status == StatusOK && geo.body.DecodeOk?
    ensures r.Ok? ==> r.value == geo.body.value
    ensures geo.RequestFail? ==> r == Err(CreateRequestPrefix + geo.reason)
    ensures geo.TransportFail? ==> r == Err(DoRequestPrefix + geo.reason)
    ensures geo.Response? && geo.status != StatusOK ==> r == Err(UnexpectedStatusPrefix + geo.statusLine)
    ensures geo.Response? && geo.status == StatusOK && geo.body.DecodeFail? ==> r == Err(DecodePrefix + geo.body.reason)
    ensures r.Err? ==> r.msg != NotFoundMessage
  {
    match geo
    case RequestFail(e) =>
      PrefixedIsNotNotFound(CreateRequestPrefix, e);
      Err(CreateRequestPrefix + e)
    case TransportFail(e) =>
      PrefixedIsNotNotFound(DoRequestPrefix, e);
      Err(DoRequestPrefix + e)
    case Response(status, line, body) =>
      if status != StatusOK then
        PrefixedIsNotNotFound(UnexpectedStatusPrefix, line);
        Err(UnexpectedStatusPrefix + line)
      else
        match body
        case DecodeFail(e) =>
          PrefixedIsNotNotFound(DecodePrefix, e);
          Err(DecodePrefix + e)
        case DecodeOk(data) => Ok(data)
  }

  /** The GET /coordenadas/:cep handler. */
  function HandleCoordenadas(cep: ByteString, geo: Exchange<Coordenadas>): (h: Handled<Coordenadas>)
    ensures h.reply.status in {StatusOK, StatusBadRequest, StatusBadGateway}
    ensures h.reply.status == StatusBadRequest <==> |cep| != 8
    ensures |cep| != 8 ==> h == Handled(Reply(StatusBadRequest, ErrorJson(InvalidCepMessage)), [])
    ensures |cep| == 8 ==> h.calls == [CallGeocode(cep, ClimaToken)]
    ensures h.reply.status == StatusOK <==> |cep| == 8 && FetchCoordinates(geo).Ok?
    ensures h.reply.status == StatusOK ==> h.reply.body == Json(geo.body.value)
    ensures h.reply.status == StatusBadGateway ==> h.reply.body == ErrorJson(FetchCoordinates(geo).msg)
  {
    if |cep| != 8 then
      Handled(Reply(StatusBadRequest, ErrorJson(InvalidCepMessage)), [])
    else
      var geocoded := [CallGeocode(cep, ClimaToken)];
      match FetchCoordinates(geo)
      case Err(e) => Handled(Reply(StatusBadGateway, ErrorJson(e)), geocoded)
      case Ok(coords) => Handled(Reply(StatusOK, Json(coords)), geocoded)
  }

  /**
   * Unlike validarCEP, the length check admits any eight bytes: "4183046a"
   * reaches the geocoder, and an empty record from it is a 200, not a 404.
   */
  lemma ClimaAdmitsNonDigits(geo: Exchange<Coordenadas>)
    ensures !Cep.IsValidCep("4183046a")
    ensures HandleCoordenadas("4183046a", geo).calls == [CallGeocode("4183046a", ClimaToken)]
    ensures HandleCoordenadas("4183046a", Response(StatusOK, "200 OK", DecodeOk(Coordenadas("", "")))).reply
         == Reply(StatusOK, Json(Coordenadas("", "")))
  {
    Cep.CepExamples();
  }
}

=== FILE: http.dfy ===
/**
 * What the services see of HTTP: the outcome of one outgoing call, the
 * reply a handler writes, and the log of the upstream fetch functions a
 * handler invoked. Transport, routing and JSON mechanics are abstract: a
 * body is either decoded into the target record or it is not.
 */
module Http {
  import opened Utf8

  /** A Go error value reduced to what the handlers inspect: its message. */
  datatype Result<T> = Ok(value: T) | Err(msg: string)

  /** json.NewDecoder(body).Decode(&target): the decoded record, or the decoder's error text. */
  datatype Decoded<T> = DecodeOk(value: T) | DecodeFail(reason: string)

  /**
   * Everything that can happen to one outgoing call: building the request
   * fails, the round trip fails (refused connection, DNS failure, a deadline
   * exceeded before the response headers arrive), or a response arrives with
   * a status code, Go's status line (resp.Status, e.g. "404 Not Found") and a
   * body as the decoder sees it. A deadline exceeded while the body is read
   * shows as a body that does not decode.
   */
  datatype Exchange<T> =
    | RequestFail(reason: string)
    | TransportFail(reason: string)
    | Response(status: int, statusLine: string, body: Decoded<T>)

  /** An outgoing request as the client builds it. */
  datatype Request = Request(verb: string, url: ByteString, headers: map<string, ByteString>)

  /** A JSON reply body: the record itself, or gin.H{"error": message}. */
  datatype Body<T> = Json(value: T) | ErrorJson(error: string)

  datatype Reply<T> = Reply(status: int, body: Body<T>)

  /** An invocation of one of the swappable upstream fetch functions, with its arguments. */
  datatype Call =
    | CallGeocode(cep: ByteString, token: ByteString)
    | CallWeather(latitude: string, longitude: string)
    | CallRelay(cep: ByteString, token: ByteString)

  /** The reply a handler writes, and the upstream fetches it made, in order. */
  datatype Handled<T> = Handled(reply: Reply<T>, calls: seq<Call>)

  // Status codes of RFC 9110: section 15.3.1 (200), 15.5.1 (400),
  // 15.5.5 (404), 15.5.21 (422), 15.6.1 (500) and 15.6.3 (502).
  const StatusOK := 200
  const StatusBadRequest := 400
  const StatusNotFound := 404
  const StatusUnprocessableEntity := 422
  const StatusInternalServerError := 500
  const StatusBadGateway := 502

  // Messages of the errors the fetch functions wrap with fmt.Errorf.
  const CreateRequestPrefix := "erro ao criar requisição: "
  const DoRequestPrefix := "erro ao realizar requisição: "
  const UnexpectedStatusPrefix := "resposta inesperada da API: "
  const DecodePrefix := "erro ao decodificar resposta: "

  /** The 422 reply message of both services' CEP check. */
  const InvalidZipcodeMessage := "invalid zipcode."

  /** The one message the handlers classify as "not found" (HTTP 404). */
  const NotFoundMessage := "can not find zipcode"

  /**
   * The status line a Go client reports for a reply written by a Go server:
   * the code followed by the status text of Go's net/http package.
   */
  function StatusLine(status: int): (line: string)
    requires status in {StatusOK, StatusBadRequest, StatusNotFound, StatusUnprocessableEntity,
                        StatusInternalServerError, StatusBadGateway}
    ensures |line| > 4 && line[3] == ' '
  {
    match status
    case 200 => "200 OK"
    case 400 => "400 Bad Request"
    case 404 => "404 Not Found"
    case 422 => "422 Unprocessable Entity"
    case 500 => "500 Internal Server Error"
    case 502 => "502 Bad Gateway"
  }

  /**
   * A message that starts with a prefix whose first letter is not 'c' is never
   * the not-found message: this is why a wrapped error never classifies as 404.
   */
  lemma {:induction false} PrefixedIsNotNotFound(prefix: string, detail: string)
    requires |prefix| > 0 && prefix[0] != NotFoundMessage[0]
    ensures prefix + detail != NotFoundMessage
  {
  }
}

=== FILE: service_a.dfy ===
/**
 * The front service (cmd/a/a.go): POST /temp/:cep validates the CEP exactly
 * as the back service does, relays it to the back service and maps the
 * outcome to a reply. The Temperatura it relays is passed through as decoded.
 */
module ServiceA {
  import opened Utf8
  import opened Http
  import opened Cep
  import opened Temperature

  const RelayEndpoint: ByteString := "http://servico-b:8081/temp/"

  /**
   * The request as fetchTemp builds it: a GET to the back service with the CEP
   * as the last path segment. It sets no header, so the token it is given is
   * not sent.
   */
  function RelayRequest(cep: ByteString, token: ByteString): (r: Request)
    ensures r.verb == "GET" && r.headers == map[]
    ensures |r.url| == |RelayEndpoint| + |cep|
    ensures r.url[..|RelayEndpoint|] == RelayEndpoint && r.url[|RelayEndpoint|..] == cep
  {
    Request("GET", RelayEndpoint + cep, map[])
  }

  /**
   * The relay requests, as fetchTemp builds them, of the calls in a handler's
   * log: every relay call contributes its request and nothing else does.
   */
  function RelayRequestsSent(calls: seq<Call>): (sent: seq<Request>)
    ensures forall c | c in calls && c.CallRelay? :: RelayRequest(c.cep, c.token) in sent
    ensures forall q | q in sent :: exists c | c in calls :: c.CallRelay? && q == RelayRequest(c.cep, c.token)
  {
    if calls == [] then []
    else
      (match calls[0]
       case CallRelay(cep, token) => [RelayRequest(cep, token)]
       case _ => [])
      + RelayRequestsSent(calls[1..])
  }

  /** The token argument of fetchTemp never reaches the request it builds. */
  lemma {:induction false} RelayRequestIgnoresToken(cep: ByteString, token1: ByteString, token2: ByteString)
    ensures RelayRequest(cep, token1) == RelayRequest(cep, token2)
  {
  }

  /** fetchTemp: classifies the relay exchange with the back service. */
  function FetchTemp(relay: Exchange<Temperatura>): (r: Result<Temperatura>)
    ensures r.Ok? <==> relay.Response? && relay.status == StatusOK && relay.body.DecodeOk?
    ensures r.Ok? ==> r.value == relay.body.value
    ensures relay.RequestFail? ==> r == Err(CreateRequestPrefix + relay.reason)
    ensures relay.TransportFail? ==> r == Err(DoRequestPrefix + relay.reason)
    ensures relay.Response? && relay.status != StatusOK ==> r == Err(UnexpectedStatusPrefix + relay.statusLine)
    ensures relay.Response? && relay.status == StatusOK && relay.body.DecodeFail? ==> r == Err(DecodePrefix + relay.body.reason)
  {
    match relay
    case RequestFail(e) => Err(CreateRequestPrefix + e)
    case TransportFail(e) => Err(DoRequestPrefix + e)
    case Response(status, line, body) =>
      if status != StatusOK then Err(UnexpectedStatusPrefix + line)
      else
        match body
        case DecodeFail(e) => Err(DecodePrefix + e)
        case DecodeOk(temp) => Ok(temp)
  }

  /** fetchTemp never fails with the exact not-found message: every error it makes carries a prefix. */
  lemma {:induction false} FetchTempNeverNotFound(relay: Exchange<Temperatura>)
    ensures FetchTemp(relay) != Err(NotFoundMessage)
  {
  }

  /**
   * The POST /temp/:cep handler. `token` is API_TOKEN as read at start-up; it
   * is handed to fetchTemp and goes no further. The 404 branch compares the
   * error message with the not-found message, which fetchTemp never produces.
   */
  function HandlePostTemp(cep: ByteString, token: ByteString, relay: Exchange<Temperatura>): (h: Handled<Temperatura>)
    ensures h.reply.status == StatusUnprocessableEntity <==> !IsValidCep(cep)
    ensures !IsValidCep(cep) ==> h == Handled(Reply(StatusUnprocessableEntity, ErrorJson(InvalidZipcodeMessage)), [])
    ensures IsValidCep(cep) ==> h.calls == [CallRelay(cep, token)]
  {
    if !IsValidCep(cep) then
      Handled(Reply(StatusUnprocessableEntity, ErrorJson(InvalidZipcodeMessage)), [])
    else
      var relayed := [CallRelay(cep, token)];
      match FetchTemp(relay)
      case Err(e) =>
        if e == NotFoundMessage then Handled(Reply(StatusNotFound, ErrorJson(NotFoundMessage)), relayed)
        else Handled(Reply(StatusBadGateway, ErrorJson(e)), relayed)
      case Ok(temp) => Handled(Reply(StatusOK, Json(temp)), relayed)
  }

  /**
   * The front service answers only 422, 502 or 200: its 404 branch is
   * unreachable, so every failure of the back service, its 404 included,
   * reaches the caller as a 502 with fetchTemp's message, and a success
   * carries the decoded Temperatura unchanged.
   */
  lemma {:induction false} HandlePostTempStatuses(cep: ByteString, token: ByteString, relay: Exchange<Temperatura>)
    ensures var h := HandlePostTemp(cep, token, relay);
            h.reply.status in {StatusUnprocessableEntity, StatusBadGateway, StatusOK}
    ensures IsValidCep(cep) && FetchTemp(relay).Err? ==>
              HandlePostTemp(cep, token, relay).reply == Reply(StatusBadGateway, ErrorJson(FetchTemp(relay).msg))
    ensures IsValidCep(cep) && relay.Response? && relay.status == StatusNotFound ==>
              (HandlePostTemp(cep, token, relay).reply
               == Reply(StatusBadGateway, ErrorJson(UnexpectedStatusPrefix + relay.statusLine)))
    ensures IsValidCep(cep) && FetchTemp(relay).Ok? ==>
              HandlePostTemp(cep, token, relay).reply == Reply(StatusOK, Json(relay.body.value))
  {
  }

  /**
   * A valid CEP makes the handler build exactly one relay request, a GET to
   * the back service's /temp/ path ending in the CEP, with no header set by
   * fetchTemp, so the front's token is never sent; an invalid CEP builds none.
   */
  lemma {:induction false} HandlePostTempRelayRequests(cep: ByteString, token: ByteString, relay: Exchange<Temperatura>)
    ensures var sent := RelayRequestsSent(HandlePostTemp(cep, token, relay).calls);
            && (IsValidCep(cep) ==> sent == [RelayRequest(cep, token)])
            && (!IsValidCep(cep) ==> sent == [])
            && forall i | 0 <= i < |sent| :: sent[i].headers == map[]
                 && sent[i].url[..|RelayEndpoint|] == RelayEndpoint && sent[i].url[|RelayEndpoint|..] == cep
  {
    var calls := HandlePostTemp(cep, token, relay).calls;
    if |calls| > 0 {
      assert calls[1..] == [];
    }
  }
}

=== FILE: service_b.dfy ===
/**
 * The back service (cmd/b/b.go): GET /temp/:cep validates the CEP, checks
 * that the CEP Aberto token is configured, geocodes the CEP, fetches the
 * current temperature at the coordinates from Open-Meteo and converts it.
 * Each stage is a single attempt and the first failure decides the reply.
 */
module ServiceB {
  import opened Utf8
  import opened Http
  import opened Cep
  import opened Temperature

  /** CEP Aberto's answer: coordinates as decimal strings and the city name (cidade.nome). */
  datatype CepAbertoResponse = CepAbertoResponse(latitude: string, longitude: string, cidadeNome: string)

  /** Open-Meteo's answer, reduced to current_weather.temperature (degrees Celsius). */
  datatype OpenMeteoResponse = OpenMeteoResponse(temperature: real)

  /** strconv.ParseFloat(s, 64): the value, or the parser's error text. */
  datatype FloatParse = Parsed(value: real) | ParseErr(reason: string)

  const GeocodeEndpoint: ByteString := "https://www.cepaberto.com/api/v3/cep?cep="
  const TokenMissingMessage := "API token not configured"
  const InvalidLatitudePrefix := "latitude inválida: "
  const InvalidLongitudePrefix := "longitude inválida: "

  /** The geocoding request: the CEP as the query parameter, the token in "Authorization: Token <token>". */
  function GeocodeRequest(cep: ByteString, token: ByteString): (r: Request)
    ensures |r.url| == |GeocodeEndpoint| + |cep|
    ensures r.verb == "GET" && r.url[..|GeocodeEndpoint|] == GeocodeEndpoint && r.url[|GeocodeEndpoint|..] == cep
    ensures r.headers.Keys == {"Authorization"}
    ensures |r.headers["Authorization"]| == 6 + |token|
    ensures r.headers["Authorization"][..6] == "Token " && r.headers["Authorization"][6..] == token
  {
    Request("GET", GeocodeEndpoint + cep, map["Authorization" := "Token " + token])
  }

  /**
   * The geocoding requests, as fetchCoordinates builds them, of the calls in a
   * handler's log: every geocoding call contributes its request and nothing
   * else does.
   */
  function GeocodeRequestsSent(calls: seq<Call>): (sent: seq<Request>)
    ensures forall c | c in calls && c.CallGeocode? :: GeocodeRequest(c.cep, c.token) in sent
    ensures forall q | q in sent :: exists c | c in calls :: c.CallGeocode? && q == GeocodeRequest(c.cep, c.token)
  {
    if calls == [] then []
    else
      (match calls[0]
       case CallGeocode(cep, token) => [GeocodeRequest(cep, token)]
       case _ => [])
      + GeocodeRequestsSent(calls[1..])
  }

  /** Distinct CEPs or tokens give distinct geocoding requests. */
  lemma {:induction false} GeocodeRequestInjective(cep1: ByteString, token1: ByteString, cep2: ByteString, token2: ByteString)
    requires GeocodeRequest(cep1, token1) == GeocodeRequest(cep2, token2)
    ensures cep1 == cep2 && token1 == token2
  {
  }

  /**
   * CEP Aberto answers 200 even for an unknown CEP; "not found" shows as a body
   * that does not decode or a record with an empty latitude or longitude.
   */
  predicate IsNotFoundBody(body: Decoded<CepAbertoResponse>) {
    body.DecodeFail? || body.value.latitude == "" || body.value.longitude == ""
  }

  /** fetchCoordinates: classifies the geocoding exchange. */
  function FetchCoordinates(geo: Exchange<CepAbertoResponse>): (r: Result<CepAbertoResponse>)
    ensures r.Ok? <==> geo.Response? && geo.status == StatusOK && !IsNotFoundBody(geo.body)
    ensures r.Ok? ==> r.value == geo.body.value && r.value.latitude != "" && r.value.longitude != ""
    ensures r == Err(NotFoundMessage) <==> geo.Response? && geo.status == StatusOK && IsNotFoundBody(geo.body)
    ensures geo.Response? && geo.status != StatusOK ==> r == Err(UnexpectedStatusPrefix + geo.statusLine)
    ensures geo.TransportFail? ==> r == Err(DoRequestPrefix + geo.reason)
    ensures geo.RequestFail? ==> r == Err(CreateRequestPrefix + geo.reason)
  {
    match geo
    case RequestFail(e) =>
      PrefixedIsNotNotFound(CreateRequestPrefix, e);
      Err(CreateRequestPrefix + e)
    case TransportFail(e) =>
      PrefixedIsNotNotFound(DoRequestPrefix, e);
      Err(DoRequestPrefix + e)
    case Response(status, line, body) =>
      if status != StatusOK then
        PrefixedIsNotNotFound(UnexpectedStatusPrefix, line);
        Err(UnexpectedStatusPrefix + line)
      else
        match body
        case DecodeFail(_) => Err(NotFoundMessage)
        case DecodeOk(data) =>
          if data.latitude == "" || data.longitude == "" then Err(NotFoundMessage) else Ok(data)
  }

  /**
   * getTemperature: parses the coordinates, then classifies the weather
   * exchange. It never looks at the HTTP status: any body that decodes gives
   * the reading, whatever the status.
   */
  function GetTemperature(latStr: string, lonStr: string, parse: string -> FloatParse,
                          weather: Exchange<OpenMeteoResponse>): (r: Result<real>)
    ensures r.Ok? <==> parse(latStr).Parsed? && parse(lonStr).Parsed? && weather.Response? && weather.body.DecodeOk?
    ensures r.Ok? ==> r.value == weather.body.value.temperature
    ensures parse(latStr).ParseErr? ==> r == Err(InvalidLatitudePrefix + parse(latStr).reason)
    ensures parse(latStr).Parsed? && parse(lonStr).ParseErr? ==> r == Err(InvalidLongitudePrefix + parse(lonStr).reason)
    ensures parse(latStr).Parsed? && parse(lonStr).Parsed? && weather.RequestFail? ==>
              r == Err(CreateRequestPrefix + weather.reason)
    ensures parse(latStr).Parsed? && parse(lonStr).Parsed? && weather.TransportFail? ==>
              r == Err(DoRequestPrefix + weather.reason)
    ensures parse(latStr).Parsed? && parse(lonStr).Parsed? && weather.Response? && weather.body.DecodeFail? ==>
              r == Err(DecodePrefix + weather.body.reason)
    ensures r.Err? ==> r.msg != NotFoundMessage
  {
    match parse(latStr)
    case ParseErr(e) =>
      PrefixedIsNotNotFound(InvalidLatitudePrefix, e);
      Err(InvalidLatitudePrefix + e)
    case Parsed(_) =>
      match parse(lonStr)
      case ParseErr(e) =>
        PrefixedIsNotNotFound(InvalidLongitudePrefix, e);
        Err(InvalidLongitudePrefix + e)
      case Parsed(_) =>
        match weather
        case RequestFail(e) =>
          PrefixedIsNotNotFound(CreateRequestPrefix, e);
          Err(CreateRequestPrefix + e)
        case TransportFail(e) =>
          PrefixedIsNotNotFound(DoRequestPrefix, e);
          Err(DoRequestPrefix + e)
        case Response(_, _, DecodeFail(e)) =>
          PrefixedIsNotNotFound(DecodePrefix, e);
          Err(DecodePrefix + e)
        case Response(_, _, DecodeOk(data)) => Ok(data.temperature)
  }

  /** The weather status code and status line never change getTemperature's outcome. */
  lemma {:induction false} GetTemperatureIgnoresStatus(latStr: string, lonStr: string, parse: string -> FloatParse,
                                                       status1: int, line1: string, status2: int, line2: string,
                                                       body: Decoded<OpenMeteoResponse>)
    ensures GetTemperature(latStr, lonStr, parse, Response(status1, line1, body))
         == GetTemperature(latStr, lonStr, parse, Response(status2, line2, body))
  {
  }

  /**
   * The GET /temp/:cep handler: validate, check the token, geocode, fetch the
   * weather, convert. `token` is API_TOKEN as read at request time.
   */
  function HandleTemp(cep: ByteString, token: ByteString, geo: Exchange<CepAbertoResponse>,
                      parse: string -> FloatParse, weather: Exchange<OpenMeteoResponse>): (h: Handled<Temperatura>)
    ensures h.reply.status in {StatusOK, StatusNotFound, StatusUnprocessableEntity, StatusInternalServerError, StatusBadGateway}
    ensures h.reply.status == StatusUnprocessableEntity <==> !IsValidCep(cep)
    ensures h.reply.status == StatusUnprocessableEntity ==> h.reply.body == ErrorJson(InvalidZipcodeMessage) && h.calls == []
    ensures h.reply.status == StatusInternalServerError <==> IsValidCep(cep) && token == ""
    ensures h.reply.status == StatusInternalServerError ==> h.reply.body == ErrorJson(TokenMissingMessage) && h.calls == []
    ensures h.reply.status == StatusNotFound
        <==> IsValidCep(cep) && token != "" && geo.Response? && geo.status == StatusOK && IsNotFoundBody(geo.body)
    ensures h.reply.status == StatusNotFound ==> h.reply.body == ErrorJson(NotFoundMessage) && h.calls == [CallGeocode(cep, token)]
    ensures h.reply.status == StatusOK ==> h.reply.body.Json? && Consistent(h.reply.body.value)
    ensures h.calls == [] || h.calls[0] == CallGeocode(cep, token)
    ensures |h.calls| <= 2
  {
    if !IsValidCep(cep) then
      Handled(Reply(StatusUnprocessableEntity, ErrorJson(InvalidZipcodeMessage)), [])
    else if token == "" then
      Handled(Reply(StatusInternalServerError, ErrorJson(TokenMissingMessage)), [])
    else
      var geocoded := [CallGeocode(cep, token)];
      match FetchCoordinates(geo)
      case Err(e) =>
        if e == NotFoundMessage then Handled(Reply(StatusNotFound, ErrorJson(NotFoundMessage)), geocoded)
        else Handled(Reply(StatusBadGateway, ErrorJson(e)), geocoded)
      case Ok(coords) =>
        var both := geocoded + [CallWeather(coords.latitude, coords.longitude)];
        match GetTemperature(coords.latitude, coords.longitude, parse, weather)
        case Err(e) => Handled(Reply(StatusBadGateway, ErrorJson(e)), both)
        case Ok(celsius) => Handled(Reply(StatusOK, Json(Convert(coords.cidadeNome, celsius))), both)
  }

  /** A geocoding error other than not-found is a 502 carrying that error's message; the weather is never fetched. */
  lemma {:induction false} HandleTempGeocodeFailure(cep: ByteString, token: ByteString, geo: Exchange<CepAbertoResponse>,
                                                    parse: string -> FloatParse, weather: Exchange<OpenMeteoResponse>)
    requires IsValidCep(cep) && token != ""
    requires FetchCoordinates(geo).Err? && FetchCoordinates(geo).msg != NotFoundMessage
    ensures HandleTemp(cep, token, geo, parse, weather)
         == Handled(Reply(StatusBadGateway, ErrorJson(FetchCoordinates(geo).msg)), [CallGeocode(cep, token)])
    ensures geo.Response? && geo.status != StatusOK ==>
              HandleTemp(cep, token, geo, parse, weather).reply.body == ErrorJson(UnexpectedStatusPrefix + geo.statusLine)
  {
  }

  /**
   * A weather failure (unparsable coordinate, transport or decode error) is a
   * 502 with getTemperature's message; the resolved city is discarded.
   */
  lemma {:induction false} HandleTempWeatherFailure(cep: ByteString, token: ByteString, geo: Exchange<CepAbertoResponse>,
                                                    parse: string -> FloatParse, weather: Exchange<OpenMeteoResponse>)
    requires IsValidCep(cep) && token != "" && FetchCoordinates(geo).Ok?
    requires GetTemperature(geo.body.value.latitude, geo.body.value.longitude, parse, weather).Err?
    ensures var coords := geo.body.value;
            (HandleTemp(cep, token, geo, parse, weather)
             == Handled(Reply(StatusBadGateway, ErrorJson(GetTemperature(coords.latitude, coords.longitude, parse, weather).msg)),
                        [CallGeocode(cep, token), CallWeather(coords.latitude, coords.longitude)]))
  {
  }

  /**
   * Success: 200 with the geocoded city, the raw reading as Celsius and the
   * derived Fahrenheit and Kelvin values.
   */
  lemma {:induction false} HandleTempSuccess(cep: ByteString, token: ByteString, geo: Exchange<CepAbertoResponse>,
                                             parse: string -> FloatParse, weather: Exchange<OpenMeteoResponse>)
    requires IsValidCep(cep) && token != "" && FetchCoordinates(geo).Ok?
    requires GetTemperature(geo.body.value.latitude, geo.body.value.longitude, parse, weather).Ok?
    ensures var celsius := weather.body.value.temperature;
            (HandleTemp(cep, token, geo, parse, weather).reply
             == Reply(StatusOK, Json(Temperatura(geo.body.value.cidadeNome, celsius, celsius * 1.8 + 32.0, celsius + 273.0))))
  {
  }

  /**
   * CEP 01001000 with the mocked upstreams of the success test: a geocoder
   * record at latitude -23.5505, longitude -46.6333 with no city, and a
   * reading of 25 degrees. The reply is 200; the city is empty and the
   * Fahrenheit and Kelvin values 77 and 298 follow from the conversion.
   */
  lemma ExampleSuccess(token: ByteString, parse: string -> FloatParse)
    requires token != "" && parse("-23.5505").Parsed? && parse("-46.6333").Parsed?
    ensures HandleTemp("01001000", token,
                       Response(StatusOK, "200 OK", DecodeOk(CepAbertoResponse("-23.5505", "-46.6333", ""))),
                       parse, Response(StatusOK, "200 OK", DecodeOk(OpenMeteoResponse(25.0)))).reply
         == Reply(StatusOK, Json(Temperatura("", 25.0, 77.0, 298.0)))
  {
  }

  /** "123" is refused with 422 before any upstream call, whatever the token and the upstreams would say. */
  lemma ExampleInvalid(token: ByteString, geo: Exchange<CepAbertoResponse>,
                       parse: string -> FloatParse, weather: Exchange<OpenMeteoResponse>)
    ensures HandleTemp("123", token, geo, parse, weather)
         == Handled(Reply(StatusUnprocessableEntity, ErrorJson(InvalidZipcodeMessage)), [])
  {
  }

  /** "00000000" answered by an empty 200 body is a 404, and the weather is never fetched. */
  lemma ExampleNotFound(token: ByteString, reason: string, parse: string -> FloatParse, weather: Exchange<OpenMeteoResponse>)
    requires token != ""
    ensures HandleTemp("00000000", token, Response(StatusOK, "200 OK", DecodeFail(reason)), parse, weather)
         == Handled(Reply(StatusNotFound, ErrorJson(NotFoundMessage)), [CallGeocode("00000000", token)])
  {
  }

  /**
   * The handler sends exactly one geocoding request, carrying the CEP in the
   * URL and the token in its Authorization header, and only once the CEP is
   * valid and the token is set; otherwise it sends none.
   */
  lemma {:induction false} HandleTempGeocodeRequests(cep: ByteString, token: ByteString, geo: Exchange<CepAbertoResponse>,
                                                     parse: string -> FloatParse, weather: Exchange<OpenMeteoResponse>)
    ensures GeocodeRequestsSent(HandleTemp(cep, token, geo, parse, weather).calls)
         == if IsValidCep(cep) && token != "" then [GeocodeRequest(cep, token)] else []
  {
    var calls := HandleTemp(cep, token, geo, parse, weather).calls;
    if |calls| > 0 {
      assert GeocodeRequestsSent(calls[1..]) == [] by {
        if |calls| == 2 {
          assert calls[1..][1..] == [];
        }
      }
    }
  }
}

=== FILE: temperature.dfy ===
/**
 * The Temperatura reply record and the unit conversion the back service
 * applies to a raw Celsius reading: F = C * 1.8 + 32 and K = C + 273 (the
 * simplified offset, not 273.15). Readings are exact reals here; 1.8 is
 * the rational 9/5.
 */
module Temperature {

  /** The JSON reply {"city", "temp_C", "temp_F", "temp_K"}. */
  datatype Temperatura = Temperatura(city: string, tempC: real, tempF: real, tempK: real)

  /** The three scales describe the same reading. */
  predicate Consistent(t: Temperatura) {
    (t.tempF - 32.0) * 5.0 == t.tempC * 9.0 && t.tempK - t.tempC == 273.0
  }

  /** The record the handler builds from the geocoded city and the raw Celsius reading. */
  function Convert(city: string, celsius: real): (t: Temperatura)
    ensures t.city == city && t.tempC == celsius
    ensures Consistent(t)
  {
    Temperatura(city, celsius, celsius * 9.0 / 5.0 + 32.0, celsius + 273.0)
  }

  /** A consistent record is determined by its city and Celsius value: Convert builds exactly the consistent records. */
  lemma {:induction false} ConsistentIsConverted(t: Temperatura)
    requires Consistent(t)
    ensures t == Convert(t.city, t.tempC)
  {
  }

  /** Celsius can be read back from either derived scale. */
  lemma {:induction false} ConvertInverse(city: string, celsius: real)
    ensures (Convert(city, celsius).tempF - 32.0) * 5.0 / 9.0 == celsius
    ensures Convert(city, celsius).tempK - 273.0 == celsius
  {
  }

  /** Freezing, boiling and 25 degrees: (0, 32, 273), (100, 212, 373), (25, 77, 298). */
  lemma ConvertExamples(city: string)
    ensures var t := Convert(city, 0.0); t.tempF == 32.0 && t.tempK == 273.0
    ensures var t := Convert(city, 100.0); t.tempF == 212.0 && t.tempK == 373.0
    ensures var t := Convert(city, 25.0); t.tempF == 77.0 && t.tempK == 298.0
  {
  }
}

=== FILE: topology.dfy ===
/**
 * The two services composed: the front service's fetchTemp receives what the
 * back service's handler replies. Both validate the CEP with the same rule,
 * so a CEP the front admits is never refused by the back.
 */
module Topology {
  import opened Http
  import opened Cep
  import opened Temperature
  import ServiceA
  import ServiceB

  /**
   * The exchange fetchTemp sees when the back service answers with `h`. The
   * status line carries the reason phrase Go writes for the code. Go's decoder
   * reads an error object into a Temperatura without complaint (unknown keys
   * are skipped), giving the zero record.
   */
  function Served(h: Handled<Temperatura>): (x: Exchange<Temperatura>)
    requires h.reply.status in {StatusOK, StatusNotFound, StatusUnprocessableEntity, StatusInternalServerError, StatusBadGateway}
    ensures x.Response? && x.status == h.reply.status && x.body.DecodeOk?
    ensures x.statusLine == StatusLine(h.reply.status)
    ensures h.reply.body.Json? ==> x.body.value == h.reply.body.value
    ensures h.reply.body.ErrorJson? ==> x.body.value == Temperatura("", 0.0, 0.0, 0.0)
  {
    Response(h.reply.status, StatusLine(h.reply.status),
             match h.reply.body
             case Json(t) => DecodeOk(t)
             case ErrorJson(_) => DecodeOk(Temperatura("", 0.0, 0.0, 0.0)))
  }

  /**
   * End to end: the front answers 200 exactly when the back does, with the
   * same consistent Temperatura; every other answer of the back, 404
   * included, becomes a 502 whose message names the back's status line.
   */
  lemma {:induction false} FrontOverBack(cep: Utf8.ByteString, frontToken: Utf8.ByteString, backToken: Utf8.ByteString,
                                         geo: Exchange<ServiceB.CepAbertoResponse>, parse: string -> ServiceB.FloatParse,
                                         weather: Exchange<ServiceB.OpenMeteoResponse>)
    ensures var back := ServiceB.HandleTemp(cep, backToken, geo, parse, weather);
            var front := ServiceA.HandlePostTemp(cep, frontToken, Served(back));
            && (!IsValidCep(cep) ==> front.reply.status == StatusUnprocessableEntity && front.calls == [])
            && (IsValidCep(cep) ==> back.reply.status != StatusUnprocessableEntity)
            && (IsValidCep(cep) && back.reply.status == StatusOK ==>
                  front.reply == back.reply && Consistent(front.reply.body.value))
            && (IsValidCep(cep) && back.reply.status != StatusOK ==>
                  front.reply == Reply(StatusBadGateway, ErrorJson(UnexpectedStatusPrefix + StatusLine(back.reply.status))))
  {
  }

  /** A CEP the geocoder does not know reaches the caller of the front service as a 502, not a 404. */
  lemma NotFoundSurfacesAsBadGateway(frontToken: Utf8.ByteString, backToken: Utf8.ByteString, reason: string,
                                     parse: string -> ServiceB.FloatParse, weather: Exchange<ServiceB.OpenMeteoResponse>)
    requires backToken != ""
    ensures var back := ServiceB.HandleTemp("00000000", backToken, Response(StatusOK, "200 OK", DecodeFail(reason)), parse, weather);
            (ServiceA.HandlePostTemp("00000000", frontToken, Served(back)).reply
             == Reply(StatusBadGateway, ErrorJson("resposta inesperada da API: 404 Not Found")))
  {
    ServiceB.ExampleNotFound(backToken, reason, parse, weather);
    var back := ServiceB.HandleTemp("00000000", backToken, Response(StatusOK, "200 OK", DecodeFail(reason)), parse, weather);
    FrontOverBack("00000000", frontToken, backToken, Response(StatusOK, "200 OK", DecodeFail(reason)), parse, weather);
    CepExamples();
    assert back.reply.status == StatusNotFound;
    assert UnexpectedStatusPrefix + StatusLine(StatusNotFound) == "resposta inesperada da API: 404 Not Found";
  }
}

=== FILE: utf8.dfy ===
/**
 * Go strings are immutable byte sequences. `len` counts bytes, while
 * `for _, c := range s` walks the string rune by rune, decoding UTF-8 and
 * yielding U+FFFD (RuneError) for every byte that does not start a valid
 * encoding. This module models that decoding step (the rules of Go's
 * unicode/utf8 DecodeRune, which follow RFC 3629 sections 3 and 4).
 */
module Utf8 {

  /** A raw Go string: one Dafny char per byte, so every char is below 256. */
  type ByteString = s: string | forall i | 0 <= i < |s| :: s[i] as int < 256

  /** The rune Go yields for an invalid encoding. */
  const RuneError: int := 0xFFFD

  /** True of a UTF-8 continuation byte 10xxxxxx. */
  predicate IsContinuation(b: int) {
    0x80 <= b <= 0xBF
  }

  /** A Unicode scalar value: a code point that is not a surrogate. */
  predicate IsScalar(r: int) {
    0 <= r <= 0x10FFFF && !(0xD800 <= r <= 0xDFFF)
  }

  /**
   * Decodes the rune at the start of `s`: the rune and the number of bytes
   * it occupies. An ASCII byte is its own rune; a byte that does not start a
   * well-formed sequence (a stray continuation byte, an overlong or surrogate
   * form, a truncated sequence) yields RuneError with width 1.
   */
  function DecodeRune(s: ByteString): (r: (int, nat))
    requires |s| > 0
    ensures 1 <= r.1 <= 4 && r.1 <= |s|
    ensures IsScalar(r.0)
    ensures s[0] as int < 0x80 ==> r == (s[0] as int, 1)
    ensures s[0] as int >= 0x80 ==> r.0 >= 0x80
    ensures s[0] as int >= 0x80 && r.1 == 1 ==> r.0 == RuneError
  {
    var b0 := s[0] as int;
    if b0 < 0x80 then (b0, 1)
    else if b0 < 0xC2 || b0 > 0xF4 then (RuneError, 1)
    else
      var width := if b0 < 0xE0 then 2 else if b0 < 0xF0 then 3 else 4;
      // The first continuation byte has a narrower range after E0, ED, F0
      // and F4: this excludes overlong forms, surrogates and values above
      // U+10FFFF.
      var lo := if b0 == 0xE0 then 0xA0 else if b0 == 0xF0 then 0x90 else 0x80;
      var hi := if b0 == 0xED then 0x9F else if b0 == 0xF4 then 0x8F else 0xBF;
      if |s| < width then (RuneError, 1)
      else
        var b1 := s[1] as int;
        if b1 < lo || hi < b1 then (RuneError, 1)
        else if width == 2 then ((b0 - 0xC0) * 0x40 + (b1 - 0x80), 2)
        else
          var b2 := s[2] as int;
          if !IsContinuation(b2) then (RuneError, 1)
          else if width == 3 then ((b0 - 0xE0) * 0x1000 + (b1 - 0x80) * 0x40 + (b2 - 0x80), 3)
          else
            var b3 := s[3] as int;
            if !IsContinuation(b3) then (RuneError, 1)
            else ((b0 - 0xF0) * 0x40000 + (b1 - 0x80) * 0x1000 + (b2 - 0x80) * 0x40 + (b3 - 0x80), 4)
  }
}
